=== FILE: README.md ===
# maestro-tracker: the tracker API's request handlers in Dafny

The tracker server keeps one document per email in the `trackers` collection of a
document store. Each document holds `entries`, an ordered array of schema-less
objects. Entries are addressed by their position in that array. Four HTTP handlers
work on the collection:

- `GET /api/data` lists every entry of every document as a record
  `{ _id: "<email>_<index>", email, index, ...entry }`;
- `POST /api/data` appends the request body, minus its `email` field, as the last
  entry of the document for that email, and creates the document if needed;
- `PUT /api/data/:email/:index` merges the body into the entry at a position;
- `DELETE /api/data/:email/:index` removes the entry at a position with
  `entries.splice(index, 1)`.

The model is made of these modules:

- `Json` (json.dfy): JSON values, JavaScript truthiness, and the object spread
  `{ ...a, ...b }` and rest pattern `{ key, ...rest }` the handlers use.
- `ArrayIndices` (indices.dfy): the two ways JavaScript reads the `:index` path
  parameter, which is always a string.
  - `entries[index]` is a property lookup. Only a canonical numeral names an
    element (`ArrayIndex`).
  - `splice(index, 1)` converts its start argument with ToIntegerOrInfinity
    (section 7.1.5 of ECMA-262). It then clamps it as Array.prototype.splice does
    (section 23.1.3.31): see `RelativeStart`, `ActualStart` and `SpliceOne`.
- `Handlers` (handlers.dfy): the collection as `map<string, seq<Entry>>`, and
  `Post`, `Put` and `Delete` as functions from the collection before the request
  to the status and the collection after it.
- `Listing` (listing.dfy): the GET handler. `Flatten` specifies it, and
  `ListAll` is the handler's nested push loop, proved equal to `Flatten`.
- `Server` (server.dfy): the collection as an object. Its `docs` field is what a
  document read returns and what a write replaces. The handler methods do the
  read, build the new `entries` array and write it back, as the source does.
  Each method is proved to give exactly the status and collection that the
  matching function gives.
- `Properties` (properties.dfy): facts about several requests in a row, and
  about concrete path parameters such as "3", "-1", "03" and "abc". It also
  holds the worked request examples.

Three behaviours of the handlers are easy to misread:

- A missing or falsy email gives 400, but an email that is truthy and not a
  string, such as a number, gives 500. The store client's `doc()` throws on such a
  path, and the handler's `catch` turns that into 500.
- Update finds the entry with a property lookup, `entries[index]`, on the string
  path parameter. So "01", "+1" and " 1" name no entry and give 404. Delete, on
  the other hand, reads "01" as position 1 (`PaddedIndex`).
- Delete does not always remove the entry at the given position. A negative
  index counts back from the end. An index that is not a number removes the
  first entry. An index past the end removes nothing, and the handler still
  answers 200.

Request bodies are modelled as objects. `express.json()` hands the handlers an
object or an array. An array body is the object whose keys are "0", "1", …, and
both the rest pattern and the spread treat it as that object. So a POST with an
array body has no `email` and gets 400, and a PUT with an array body merges its
elements under those keys.

A document without an `entries` field is identified with a document whose
`entries` is empty. All four handlers treat the two alike: three read the field
with `|| []`, and the list handler skips anything that is not an array.

## Model

| member | source | states |
|---|---|---|
| `Json.Spread` | server.js:89 | `{ ...base, ...patch }` has the keys of both objects; `patch` wins on a shared key; keys only in `base` keep their values |
| `Json.Rest` | server.js:48 | the rest of `{ email, ...entryData }` is the body without `email`, with every other field and value kept |
| `Json.Truthy` | server.js:50 | a value is falsy exactly when it is `null`, `false`, 0 or the empty string; objects and every other value are truthy |
| `ArrayIndices.NatToString` | server.js:34 | the `${index}` rendering is a canonical numeral (digits only, no leading zero) whose decimal value is the index |
| `ArrayIndices.CanonicalNumeralUnique` | server.js:88 | a canonical numeral is the rendering of its own value, so numerals and positions correspond one to one |
| `ArrayIndices.ArrayIndex` | server.js:88-89 | a key names position n exactly when it is the rendering of n and n < 2^32 - 1; every other key names no element |
| `ArrayIndices.RelativeStart` | server.js:115 | the splice start read from the path parameter: a string of digits is its decimal value, a sign followed by digits is that value with the sign, and any other string is 0 (NaN converts to 0) |
| `ArrayIndices.ActualStart` | server.js:115 | the clamped start is at most the length; a start from 0 to the length is kept; -n with n up to the length is n back from the end; below -length it is 0, above the length it is the length |
| `ArrayIndices.SpliceOne` | server.js:115 | after `splice(start, 1)` with actual start k: if k < length, the element at k is gone, earlier ones stay, later ones shift left by one, length drops by one and the multiset loses exactly that element; if k = length, the array is unchanged |
| `ArrayIndices.RelativeStartForms` | server.js:115 | as a splice start, "n" is n, "-n" is -n, and "0" followed by a numeral is that numeral's value |
| `Handlers.EntriesOf` | server.js:86 | the entries a handler reads (here and in the same reads at lines 57 and 114) are empty exactly when the document is missing or its array is empty, and are otherwise the stored array |
| `Handlers.Post` | server.js:47-70 | a falsy or absent email gives 400, and a truthy non-string email gives 500, both with the collection unchanged; otherwise the status is 200 and the email's document is created if absent; its entries are the old ones (none if absent) followed by the body without `email`, so the length grows by one; every other document is unchanged |
| `Handlers.Put` | server.js:74-99 | the status is 200 exactly when the document exists and the index names one of its positions, otherwise 404 with nothing written; on 200 that entry becomes the old entry spread with the body; the length and every other entry and document are unchanged |
| `Handlers.Delete` | server.js:103-123 | the status is 404 exactly when the document is missing, and then nothing changes; otherwise 200 and the document's entries become the array `splice(index, 1)` leaves; every other document is unchanged |
| `Listing.Flatten` | server.js:29-36 | every listed record carries the keys `_id`, `email` and `index` |
| `Listing.Record` | server.js:34 | the listed record has keys `_id`, `email`, `index` and the entry's keys; entry fields win on a clash; otherwise `_id` is "<email>_<index>", `email` the document id and `index` the position |
| `Listing.ListingLength` | server.js:29-36 | the listing has exactly as many records as the listed documents have entries together |
| `Listing.ListingAt` | server.js:29-36 | entry i of the p-th document appears as its record at offset (entries of the documents before it) + i: documents in snapshot order, entries in array order |
| `Listing.ListingComplete` | server.js:29-36 | when the snapshot covers the collection, every entry of every document appears in the listing with its record |
| `Listing.ListAll` | server.js:26-39 | the nested push loop builds exactly the listing, and its length is the total number of entries |
| `Properties.PostAllStep` | server.js:56-63 | one more post naming a non-empty email appends that body, without `email`, to the entries the earlier posts left |
| `Properties.PostsAppendInOrder` | server.js:53-63 | posting bodies that all name one non-empty email leaves that document's old entries followed by the bodies' remaining fields, in posting order |
| `Properties.ListedInPostingOrder` | server.js:34 | after N posts for a new email, its records at indices 0 .. N-1 are those of the posted entries in posting order, with `_id` "<email>_<i>" |
| `Properties.PostExtendsRecords` | server.js:59 | a successful post keeps the document's listed records and adds one record last, carrying the next index |
| `Properties.PutAtPosition` | server.js:88-90 | the path parameter "i" for an existing position i updates that entry to the old entry spread with the body |
| `Properties.PutMergesFields` | server.js:89 | an update keeps every field of the old entry that the body does not name and takes every field the body names from the body |
| `Properties.DeleteAtPosition` | server.js:114-117 | the path parameter "i" for an existing position i removes exactly that entry; later entries move down one index |
| `Properties.PositionPastEnd` | server.js:88-93 | a position at or past the end gives 404 for update, but 200 for delete with the collection unchanged |
| `Properties.DeleteFromEnd` | server.js:115 | "-n" deletes the entry at max(length - n, 0) |
| `Properties.NonNumericIndex` | server.js:88-117 | a parameter with no digit and no "I" (so neither a number nor "Infinity") gives 404 for update (array property names aside, see the Put line under Left out); for delete it gives 200 and removes the first entry, if there is one |
| `Properties.PaddedIndex` | server.js:88 | "0" followed by the numeral of an existing position gives 404 for update, while delete removes that position |
| `Properties.ExamplePosts` | server.js:56-63 | posting {email, mood: "happy"} and then {email, mood: "sad"} to an empty collection leaves one document with the two moods in that order |
| `Properties.ExampleListing` | server.js:34 | a document "a@x.com" with two entries lists as `_id` "a@x.com_0", `index` 0, then `_id` "a@x.com_1", `index` 1, each spread with its entry |
| `Properties.ExampleUpdate` | server.js:88-90 | an update of "0" with {mood: "ok"} replaces only that entry's mood |
| `Properties.ExampleDelete` | server.js:114-117 | deleting "0" from a document with two entries answers 200 and leaves only the former second entry |
| `Properties.ExampleListingAfterDelete` | server.js:34 | that entry is then listed at index 0 with `_id` "a@x.com_0" |
| `Server.TrackerCollection.HandlePost` | server.js:47-70 | reading the document, appending and writing it back gives exactly the status and collection of `Post` |
| `Server.TrackerCollection.HandlePut` | server.js:74-99 | reading the document, assigning the merged entry in place and writing the array back gives exactly the status and collection of `Put` |
| `Server.TrackerCollection.HandleDelete` | server.js:103-123 | reading the document, splicing its array and writing it back gives exactly the status and collection of `Delete` |
| `Server.TrackerCollection.HandleGet` | server.js:24-39 | given a snapshot that yields every document once, reading it and running the push loop gives exactly the listing of the current collection: one record per stored entry, and the record of every entry of every document |

## Left out

- Express setup, CORS, JSON body parsing, static files and `app.listen`
  (server.js:1-11, 126-130): these are plumbing around the handlers.
- Firebase Admin initialisation and credentials (server.js:13-21). The store
  client is reduced to reading and replacing one document's `entries`. A document's
  other fields, which `update` would keep, are not modelled.
- Which document ids the store accepts. Any string email is an opaque key. An email
  with "/" in it, or "." or "..", makes the store client throw or address a
  sub-collection; that is not modelled.
- The store's snapshot order: `HandleGet` and `ListAll` take it as a parameter.
  `HandleGet` requires that it yields every document exactly once, as a
  collection read does.
- Store read and write failures, and the 500 answers and logging they lead to
  (server.js:40-43, 66-69, 95-98, 119-122). They are I/O failures of the store.
  Of the 500s a request can cause, only the non-string email is modelled; the
  others (refused document ids, array property names) are listed in this section.
- The race between concurrent requests. Each handler's read and write are two
  separate store calls, so requests to the same email can lose each other's
  writes. The model runs one request at a time.
- RelativeStart: only decimal integers with an optional sign are read as numbers.
  ToNumber also accepts surrounding white space, fractions ("1.5" is 1), exponents
  ("1e1" is 10), hexadecimal, octal and binary forms ("0x1" is 1) and "Infinity".
  The model reads all of these as NaN, so as 0.
- Put (and NonNumericIndex): `index` values that name a property every array has, its own "length" or
  one it inherits ("constructor", "map", "__proto__", ...), are modelled as naming
  no entry (404). For "length" on an empty array that is also what JavaScript
  does, since 0 is falsy. On a non-empty array `entries["length"]` is truthy, and
  assigning the merged object to `length` throws, so the handler answers 500. For
  the other names `entries[index]` is truthy (a function, or Array.prototype for
  "__proto__"), the handler assigns a merged object to that property, and the
  outcome depends on how the store client serialises the array.
- Put: the truthiness test on `entries[index]` is not modelled as such. Every stored
  entry in this model is an object and therefore truthy. Entries that are `null`,
  `0` or `""`, which the handlers never write, are outside the model.
- Bodies that are JSON primitives: `express.json()` rejects them before any
  handler runs.
- The key order of entries and records. JavaScript objects list array-index keys
  such as "0" first, in ascending order, and every other key in insertion order.
  So `_id`, `email` and `index` come first in a record unless the entry has
  array-index keys. Maps have no order.
- Number values beyond integers: fractional numbers are opaque values; the
  synthesised `index` is an integer.
- Limits: the array length limit of 2^32 - 1 on append, and the store's document
  size limit. Both would end in a thrown error and 500.

=== FILE: handlers.dfy ===
/** The three write handlers of the tracker API as functions from the `trackers`
    collection before the request to the response status and the collection after
    it. Each handler reads one document, computes its new `entries` array and writes
    it back; on any non-Ok status nothing is written. */
module Handlers {
  import opened Json
  import opened ArrayIndices

  /** The `trackers` collection: each document id (an email) maps to the document's
      `entries` array. A document without an `entries` field is the same as one
      whose array is empty: every handler reads it with `|| []`. */
  type Store = map<string, seq<Entry>>

  /** HTTP status of a response: 200, 400, 404 and 500. */
  datatype Status = Ok | BadRequest | NotFound | ServerError

  datatype Outcome = Outcome(status: Status, store: Store)

  /** `doc.exists ? doc.data().entries || [] : []` */
  function EntriesOf(store: Store, email: string): (entries: seq<Entry>)
    ensures entries == [] <==> email !in store || store[email] == []
    ensures entries != [] ==> entries == store[email]
  {
    if email in store then store[email] else []
  }

  /** POST /api/data. The body's `email` field names the document; the rest of the
      body becomes a new last entry of it, and the document is created when absent.
      A falsy email is rejected with 400. A truthy email that is not a string makes
      the store client's `doc()` throw, which the handler answers with 500. */
  function Post(store: Store, body: Entry): (r: Outcome)
    ensures r.status == BadRequest <==> !("email" in body && Truthy(body["email"]))
    ensures r.status == ServerError <==>
      "email" in body && Truthy(body["email"]) && !body["email"].Str?
    ensures r.status != NotFound
    ensures r.status != Ok ==> r.store == store
    ensures r.status == Ok ==>
      var email := body["email"].s;
      var before := EntriesOf(store, email);
      && email != ""
      && r.store.Keys == store.Keys + {email}
      && |r.store[email]| == |before| + 1
      && r.store[email][..|before|] == before
      && r.store[email][|before|] == Rest(body, "email")
      && (forall k :: k in store && k != email ==> r.store[k] == store[k])
  {
    var entryData := Rest(body, "email");
    if "email" !in body || !Truthy(body["email"]) then Outcome(BadRequest, store)
    else if !body["email"].Str? then Outcome(ServerError, store)
    else
      var email := body["email"].s;
      if email in store then
        var existing := store[email];
        assert (existing + [entryData])[..|existing|] == existing;
        Outcome(Ok, store[email := existing + [entryData]])
      else
        Outcome(Ok, store[email := [entryData]])
  }

  /** PUT /api/data/:email/:index. `entries[index]` names an element exactly when
      `index` is the canonical numeral of a position of the array; that entry becomes
      the spread of the old entry and the body. A missing document or a missing
      entry is 404 and writes nothing. */
  function Put(store: Store, email: string, index: string, updateData: Entry): (r: Outcome)
    ensures r.status == Ok || r.status == NotFound
    ensures r.status == Ok <==>
      email in store && ArrayIndex(index).Some? && ArrayIndex(index).value < |store[email]|
    ensures r.status == NotFound ==> r.store == store
    ensures r.status == Ok ==>
      email in store && ArrayIndex(index).Some? && r.store.Keys == store.Keys &&
      var i := ArrayIndex(index).value;
      var before := store[email];
      var after := r.store[email];
      && |after| == |before|
      && after[i] == Spread(before[i], updateData)
      && (forall j :: 0 <= j < |before| && j != i ==> after[j] == before[j])
      && (forall k :: k in store && k != email ==> r.store[k] == store[k])
  {
    if email !in store then Outcome(NotFound, store)
    else
      var entries := EntriesOf(store, email);
      match ArrayIndex(index)
      case None => Outcome(NotFound, store)
      case Some(i) =>
        if i < |entries| then
          Outcome(Ok, store[email := entries[i := Spread(entries[i], updateData)]])
        else
          Outcome(NotFound, store)
  }

  /** DELETE /api/data/:email/:index. A missing document is 404. Otherwise the
      array after `entries.splice(index, 1)` is written back, whether or not an
      element was removed. */
  function Delete(store: Store, email: string, index: string): (r: Outcome)
    ensures r.status == Ok || r.status == NotFound
    ensures r.status == NotFound <==> email !in store
    ensures r.status == NotFound ==> r.store == store
    ensures r.status == Ok ==>
      && email in store
      && r.store.Keys == store.Keys
      && r.store[email] == SpliceOne(store[email], index)
      && (forall k :: k in store && k != email ==> r.store[k] == store[k])
  {
    if email !in store then Outcome(NotFound, store)
    else
      var entries := EntriesOf(store, email);
      Outcome(Ok, store[email := SpliceOne(entries, index)])
  }
}

=== FILE: indices.dfy ===
/** How JavaScript turns the `:index` path parameter (always a string) into an array
    position: as a property key for `entries[index]` (update) and as the start
    argument of `entries.splice(index, 1)` (delete). The two readings differ. */
module ArrayIndices {
  import opened Json

  /** The largest length a JavaScript array can have, 2^32 - 1. */
  const MaxArrayLength: nat := 0xFFFF_FFFF

  predicate IsDigit(c: char)
  {
    '0' <= c <= '9'
  }

  predicate AllDigits(s: string)
  {
    forall i :: 0 <= i < |s| ==> IsDigit(s[i])
  }

  function DigitValue(c: char): (d: nat)
    requires IsDigit(c)
    ensures d < 10
  {
    c as int - '0' as int
  }

  function DigitChar(d: nat): (c: char)
    requires d < 10
    ensures IsDigit(c) && DigitValue(c) == d
  {
    ('0' as int + d) as char
  }

  /** The value of a string of decimal digits, most significant digit first
      (the empty string has value 0). */
  function DecimalValue(s: string): nat
    requires AllDigits(s)
    decreases |s|
  {
    if s == [] then 0 else 10 * DecimalValue(s[..|s| - 1]) + DigitValue(s[|s| - 1])
  }

  /** A canonical numeral: one or more digits, with no leading zero unless the
      numeral is "0" itself. */
  predicate IsCanonicalNumeral(s: string)
  {
    |s| >= 1 && AllDigits(s) && (s[0] == '0' ==> |s| == 1)
  }

  /** Number::toString of a non-negative integer (section 6.1.6.1.20 of ECMA-262):
      the canonical numeral whose value is `n`. It renders the `index` in `_id`. */
  function NatToString(n: nat): (s: string)
    ensures IsCanonicalNumeral(s) && DecimalValue(s) == n
    decreases n
  {
    if n < 10 then [DigitChar(n)]
    else
      var prefix := NatToString(n / 10);
      assert (prefix + [DigitChar(n % 10)])[..|prefix|] == prefix;
      prefix + [DigitChar(n % 10)]
  }

  /** A canonical numeral with more than one digit has a value of at least 10. */
  lemma {:induction false} CanonicalNumeralAtLeastTen(s: string)
    requires IsCanonicalNumeral(s) && |s| >= 2
    ensures DecimalValue(s) >= 10
  {
    var prefix := s[..|s| - 1];
    if |prefix| >= 2 {
      CanonicalNumeralAtLeastTen(prefix);
    } else {
      assert prefix[0] == s[0] && s[0] != '0';
    }
  }

  /** A canonical numeral is the one NatToString produces for its value: property
      keys and array positions correspond one to one. */
  lemma {:induction false} CanonicalNumeralUnique(s: string)
    requires IsCanonicalNumeral(s)
    ensures NatToString(DecimalValue(s)) == s
  {
    if |s| >= 2 {
      var prefix := s[..|s| - 1];
      var n := DecimalValue(s);
      CanonicalNumeralAtLeastTen(s);
      assert prefix[0] == s[0];
      CanonicalNumeralUnique(prefix);
      assert n / 10 == DecimalValue(prefix) && n % 10 == DigitValue(s[|s| - 1]);
      assert DigitChar(n % 10) == s[|s| - 1];
      assert s == prefix + [s[|s| - 1]];
    }
  }

  /** The array index a property key denotes, if any. A key names an element only
      when it is the canonical numeral of an integer below 2^32 - 1 (an "array
      index", section 6.1.7 of ECMA-262); every other key ("01", "+1", "-0", " 1",
      "1.0", "abc") names no element. */
  function ArrayIndex(key: string): (r: Option<nat>)
    ensures r.Some? ==> r.value < MaxArrayLength && NatToString(r.value) == key
    ensures r.None? ==> forall n: nat :: n < MaxArrayLength ==> NatToString(n) != key
  {
    if IsCanonicalNumeral(key) && DecimalValue(key) < MaxArrayLength then
      CanonicalNumeralUnique(key);
      Some(DecimalValue(key))
    else
      None
  }

  /** An optionally signed decimal integer, leading zeros allowed: the strings
      whose ToNumber this model computes. */
  predicate IsDecimalInteger(s: string)
  {
    || (|s| >= 2 && (s[0] == '-' || s[0] == '+') && AllDigits(s[1..]))
    || (|s| >= 1 && AllDigits(s))
  }

  /** ToIntegerOrInfinity(ToNumber(s)) (sections 7.1.5 and 7.1.4.1.1 of ECMA-262)
      for the splice start. A decimal integer gives its value; every other string is
      read as NaN, which becomes 0 (the empty string also becomes 0). */
  function RelativeStart(s: string): (r: int)
    ensures !IsDecimalInteger(s) ==> r == 0
    ensures AllDigits(s) ==> r == DecimalValue(s)
    ensures |s| >= 2 && (s[0] == '-' || s[0] == '+') && AllDigits(s[1..]) ==>
      (if s[0] == '-' then -r else r) == DecimalValue(s[1..])
  {
    if |s| >= 2 && s[0] == '-' && AllDigits(s[1..]) then -(DecimalValue(s[1..]) as int)
    else if |s| >= 2 && s[0] == '+' && AllDigits(s[1..]) then DecimalValue(s[1..])
    else if AllDigits(s) then DecimalValue(s)
    else 0
  }

  /** actualStart of Array.prototype.splice (section 23.1.3.31 of ECMA-262): a
      negative start counts back from the end, and both ends are clamped. */
  function ActualStart(relativeStart: int, len: nat): (k: nat)
    ensures k <= len
    ensures 0 <= relativeStart <= len ==> k == relativeStart
    ensures -(len as int) <= relativeStart < 0 ==> len - k == -relativeStart
    ensures relativeStart < -(len as int) ==> k == 0
    ensures relativeStart > len ==> k == len
  {
    if relativeStart < 0 then
      if len + relativeStart < 0 then 0 else len + relativeStart
    else if relativeStart < len then relativeStart
    else len
  }

  /** The array that `a.splice(start, 1)` leaves behind: actualDeleteCount is
      min(1, len - actualStart), so exactly the element at actualStart goes when
      there is one, everything before it stays, everything after it moves one
      place to the left, and an array with no element there is left as it was. */
  function SpliceOne<T>(a: seq<T>, start: string): (r: seq<T>)
    ensures var k := ActualStart(RelativeStart(start), |a|);
      && k <= |a|
      && (k < |a| ==> |r| == |a| - 1 && multiset(r) + multiset{a[k]} == multiset(a))
      && (k == |a| ==> r == a)
      && (forall j :: 0 <= j < k && j < |r| ==> r[j] == a[j])
      && (forall j :: k <= j < |r| ==> r[j] == a[j + 1])
  {
    var k := ActualStart(RelativeStart(start), |a|);
    var deleteCount := if k < |a| then 1 else 0;
    assert k < |a| ==> a == a[..k] + [a[k]] + a[k + 1..];
    a[..k] + a[k + deleteCount..]
  }

  /** A leading zero does not change the value of a numeral. */
  lemma {:induction false} LeadingZeroValue(t: string)
    requires AllDigits(t)
    ensures AllDigits("0" + t) && DecimalValue("0" + t) == DecimalValue(t)
  {
    if t != [] {
      var u := "0" + t;
      assert u[..|u| - 1] == "0" + t[..|t| - 1];
      LeadingZeroValue(t[..|t| - 1]);
    }
  }

  /** The start each form of path parameter denotes: "i" is i, "-n" is -n,
      and "0" followed by a numeral is that numeral's value. */
  lemma RelativeStartForms(n: nat)
    ensures RelativeStart(NatToString(n)) == n
    ensures RelativeStart("-" + NatToString(n)) == -(n as int)
    ensures RelativeStart("0" + NatToString(n)) == n
  {
    var t := NatToString(n);
    assert ("-" + t)[1..] == t;
    LeadingZeroValue(t);
  }
}

=== FILE: json.dfy ===
/** The JSON values that request bodies and stored entries are made of, and the two
    object operations the handlers apply to them: spread and rest. */
module Json {

  /** The conventional optional value. */
  datatype Option<+T> = None | Some(value: T)

  /** A JSON value. Only what the handlers inspect is told apart: the email field's
      truthiness and string-ness, and the numbers and strings the list handler
      synthesises. `Opaque` stands for every other value (an array, a nested object,
      a number with a fractional part); JavaScript treats all of those as truthy. */
  datatype Value = Null | Bool(b: bool) | Num(n: int) | Str(s: string) | Opaque(tag: nat)

  /** JavaScript truthiness, ToBoolean of section 7.1.2 of ECMA-262
      (integral numbers only: `-0` is read as `Num(0)`). */
  predicate Truthy(v: Value)
    ensures Truthy(v) <==> !(v == Null || v == Bool(false) || v == Num(0) || v == Str(""))
  {
    match v
    case Null => false
    case Bool(b) => b
    case Num(n) => n != 0
    case Str(s) => s != ""
    case Opaque(_) => true
  }

  /** A schema-less entry: a plain object from field names to values. Key order is
      not modelled. */
  type Entry = map<string, Value>

  /** The object literal `{ ...base, ...patch }`: every key of either object, with
      the value from `patch` wherever both have the key. */
  function Spread(base: Entry, patch: Entry): (r: Entry)
    ensures r.Keys == base.Keys + patch.Keys
    ensures forall k :: k in patch ==> r[k] == patch[k]
    ensures forall k :: k in base && k !in patch ==> r[k] == base[k]
  {
    base + patch
  }

  /** The rest element of the pattern `const { key, ...rest } = obj`: every field of
      `obj` except `key`, each with its value. */
  function Rest(obj: Entry, key: string): (rest: Entry)
    ensures key !in rest
    ensures rest.Keys == obj.Keys - {key}
    ensures forall k :: k in rest ==> rest[k] == obj[k]
  {
    obj - {key}
  }
}

=== FILE: listing.dfy ===
/** GET /api/data: every entry of every document, flattened into one array of
    records `{ _id: "<email>_<index>", email, index, ...entry }`. */
module Listing {
  import opened Json
  import opened ArrayIndices
  import opened Handlers

  /** The fields `_id`, `email` and `index` of the record of the entry at position
      `index` of the document `email`. */
  function Synthesised(email: string, index: nat): Entry
  {
    map["_id" := Str(email + "_" + NatToString(index)), "email" := Str(email), "index" := Num(index)]
  }

  /** The record listed for the entry at position `index` of the document `email`.
      The entry's own fields are spread last, so they win over the synthesised
      `_id`, `email` and `index` when they share a name. */
  function Record(email: string, index: nat, entry: Entry): (r: Entry)
    ensures r.Keys == {"_id", "email", "index"} + entry.Keys
    ensures forall k :: k in entry ==> r[k] == entry[k]
    ensures "_id" !in entry ==> r["_id"] == Str(email + "_" + NatToString(index))
    ensures "email" !in entry ==> r["email"] == Str(email)
    ensures "index" !in entry ==> r["index"] == Num(index)
  {
    Spread(Synthesised(email, index), entry)
  }

  /** The records of one document, in array order. */
  function DocRecords(email: string, entries: seq<Entry>): seq<Entry>
  {
    seq(|entries|, i requires 0 <= i < |entries| => Record(email, i, entries[i]))
  }

  /** `order` lists documents of the store: the order in which the collection
      snapshot yields them, which the store decides. */
  predicate InStore(store: Store, order: seq<string>)
  {
    forall k :: k in order ==> k in store
  }

  /** `order` is what a collection snapshot yields: every document of the store,
      each exactly once. */
  predicate IsSnapshot(store: Store, order: seq<string>)
  {
    && InStore(store, order)
    && (forall k :: k in store ==> k in order)
    && (forall i, j :: 0 <= i < j < |order| ==> order[i] != order[j])
  }

  /** The records of the documents in `order`, document after document. */
  function Flatten(store: Store, order: seq<string>): (records: seq<Entry>)
    requires InStore(store, order)
    ensures forall r :: r in records ==> "_id" in r && "email" in r && "index" in r
    decreases |order|
  {
    if order == [] then []
    else
      var email := order[|order| - 1];
      Flatten(store, order[..|order| - 1]) + DocRecords(email, store[email])
  }

  /** The number of entries in the documents of `order`. */
  function TotalEntries(store: Store, order: seq<string>): nat
    requires InStore(store, order)
    decreases |order|
  {
    if order == [] then 0
    else TotalEntries(store, order[..|order| - 1]) + |store[order[|order| - 1]]|
  }

  /** The listing holds one record per entry. */
  lemma {:induction false} ListingLength(store: Store, order: seq<string>)
    requires InStore(store, order)
    ensures |Flatten(store, order)| == TotalEntries(store, order)
  {
    if order != [] {
      ListingLength(store, order[..|order| - 1]);
    }
  }

  /** The entry at position `i` of the `p`-th listed document appears as its record
      right after the records of the documents listed before it. */
  lemma {:induction false} ListingAt(store: Store, order: seq<string>, p: nat, i: nat)
    requires InStore(store, order)
    requires p < |order| && i < |store[order[p]]|
    ensures TotalEntries(store, order[..p]) + i < |Flatten(store, order)|
    ensures Flatten(store, order)[TotalEntries(store, order[..p]) + i]
      == Record(order[p], i, store[order[p]][i])
  {
    var init := order[..|order| - 1];
    ListingLength(store, init);
    if p == |order| - 1 {
      assert order[..p] == init;
    } else {
      assert init[..p] == order[..p] && init[p] == order[p];
      ListingAt(store, init, p, i);
    }
  }

  /** When the snapshot lists every document, every entry of every document is
      listed, with the `_id` "<email>_<position>". */
  lemma ListingComplete(store: Store, order: seq<string>, email: string, i: nat)
    requires InStore(store, order)
    requires forall k :: k in store ==> k in order
    requires email in store && i < |store[email]|
    ensures Record(email, i, store[email][i]) in Flatten(store, order)
  {
    var p :| 0 <= p < |order| && order[p] == email;
    ListingAt(store, order, p, i);
  }

  /** The handler's loops: for each document of the snapshot, for each entry in
      array order, push its record. */
  method ListAll(store: Store, order: seq<string>) returns (allEntries: seq<Entry>)
    requires InStore(store, order)
    ensures allEntries == Flatten(store, order)
    ensures |allEntries| == TotalEntries(store, order)
  {
    allEntries := [];
    var d := 0;
    while d < |order|
      invariant 0 <= d <= |order|
      invariant allEntries == Flatten(store, order[..d])
    {
      var email := order[d];
      var entries := store[email];
      var index := 0;
      while index < |entries|
        invariant 0 <= index <= |entries|
        invariant allEntries == Flatten(store, order[..d]) + DocRecords(email, entries[..index])
      {
        allEntries := allEntries + [Record(email, index, entries[index])];
        index := index + 1;
      }
      assert entries[..index] == entries;
      assert order[..d + 1][..d] == order[..d];
      d := d + 1;
    }
    assert order[..d] == order;
    ListingLength(store, order);
  }
}

=== FILE: properties.dfy ===
/** Properties that relate several requests, or that follow one request through
    the index coercions down to concrete path parameters. */
module Properties {
  import opened Json
  import opened ArrayIndices
  import opened Handlers
  import opened Listing

  /** The collection after the bodies are posted one after another. */
  function PostAll(store: Store, bodies: seq<Entry>): Store
    decreases |bodies|
  {
    if bodies == [] then store
    else Post(PostAll(store, bodies[..|bodies| - 1]), bodies[|bodies| - 1]).store
  }

  /** The entries posting the bodies creates: each body without its `email`. */
  function PostedEntries(bodies: seq<Entry>): seq<Entry>
  {
    seq(|bodies|, i requires 0 <= i < |bodies| => Rest(bodies[i], "email"))
  }

  /** One more post with a non-empty string email appends the body without
      `email` to that email's entries. */
  lemma PostAllStep(store: Store, email: string, bodies: seq<Entry>)
    requires email != "" && bodies != []
    requires "email" in bodies[|bodies| - 1] && bodies[|bodies| - 1]["email"] == Str(email)
    ensures EntriesOf(PostAll(store, bodies), email)
      == EntriesOf(PostAll(store, bodies[..|bodies| - 1]), email) + [Rest(bodies[|bodies| - 1], "email")]
  {
  }

  /** The entries of one more body follow those of the earlier bodies. */
  lemma PostedEntriesSnoc(bodies: seq<Entry>)
    requires bodies != []
    ensures PostedEntries(bodies)
      == PostedEntries(bodies[..|bodies| - 1]) + [Rest(bodies[|bodies| - 1], "email")]
  {
  }

  /** Posting bodies that all carry the same non-empty email appends their
      remaining fields to that document in posting order. */
  lemma {:induction false} PostsAppendInOrder(store: Store, email: string, bodies: seq<Entry>)
    requires email != ""
    requires forall i :: 0 <= i < |bodies| ==> "email" in bodies[i] && bodies[i]["email"] == Str(email)
    ensures EntriesOf(PostAll(store, bodies), email) == EntriesOf(store, email) + PostedEntries(bodies)
  {
    if bodies != [] {
      var init := bodies[..|bodies| - 1];
      var lastEntry := Rest(bodies[|bodies| - 1], "email");
      PostsAppendInOrder(store, email, init);
      PostAllStep(store, email, bodies);
      PostedEntriesSnoc(bodies);
      calc {
        EntriesOf(PostAll(store, bodies), email);
        EntriesOf(PostAll(store, init), email) + [lastEntry];
        (EntriesOf(store, email) + PostedEntries(init)) + [lastEntry];
        EntriesOf(store, email) + (PostedEntries(init) + [lastEntry]);
      }
    }
  }

  /** After N posts for a new email, the listing of that document shows the posted
      entries at indices 0 .. N-1 in posting order, with `_id` "<email>_<i>". */
  lemma ListedInPostingOrder(store: Store, email: string, bodies: seq<Entry>, i: nat)
    requires email != "" && email !in store
    requires forall j :: 0 <= j < |bodies| ==> "email" in bodies[j] && bodies[j]["email"] == Str(email)
    requires i < |bodies|
    ensures email in PostAll(store, bodies) && |PostAll(store, bodies)[email]| == |bodies|
    ensures DocRecords(email, PostAll(store, bodies)[email])[i] == Record(email, i, Rest(bodies[i], "email"))
  {
    PostsAppendInOrder(store, email, bodies);
    var entries := EntriesOf(PostAll(store, bodies), email);
    assert entries == PostedEntries(bodies) by {
      assert EntriesOf(store, email) == [];
    }
    assert email in PostAll(store, bodies);
  }


  /** A successful post adds exactly one record to the document's listing, last,
      with the next index; the records already listed are unchanged. */
  lemma PostExtendsRecords(store: Store, body: Entry)
    requires Post(store, body).status == Ok
    ensures var email := body["email"].s;
      DocRecords(email, Post(store, body).store[email])
        == DocRecords(email, EntriesOf(store, email))
         + [Record(email, |EntriesOf(store, email)|, Rest(body, "email"))]
  {
  }

  /** The path parameter "i" addresses position i for update: the entry there is
      merged with the body and written back. */
  lemma PutAtPosition(store: Store, email: string, i: nat, updateData: Entry)
    requires email in store && i < |store[email]| <= MaxArrayLength
    ensures var r := Put(store, email, NatToString(i), updateData);
      && r.status == Ok
      && r.store[email][i] == Spread(store[email][i], updateData)
  {
  }

  /** An update keeps every field of the old entry that the body does not name and
      takes every field the body names from the body. */
  lemma PutMergesFields(store: Store, email: string, index: string, updateData: Entry)
    requires Put(store, email, index, updateData).status == Ok
    ensures var i := ArrayIndex(index).value;
      var merged := Put(store, email, index, updateData).store[email][i];
      && merged.Keys == store[email][i].Keys + updateData.Keys
      && (forall k :: k in updateData ==> merged[k] == updateData[k])
      && (forall k :: k in store[email][i] && k !in updateData ==> merged[k] == store[email][i][k])
  {
  }

  /** The path parameter "i" addresses position i for delete: that entry is removed
      and every later one moves down one index. */
  lemma DeleteAtPosition(store: Store, email: string, i: nat)
    requires email in store && i < |store[email]|
    ensures var r := Delete(store, email, NatToString(i));
      && r.status == Ok
      && r.store[email] == store[email][..i] + store[email][i + 1..]
  {
  }

  /** A position at or past the end is 404 for update but 200 for delete, and the
      delete leaves the collection exactly as it was. */
  lemma PositionPastEnd(store: Store, email: string, i: nat, updateData: Entry)
    requires email in store && |store[email]| <= i
    ensures Put(store, email, NatToString(i), updateData) == Outcome(NotFound, store)
    ensures Delete(store, email, NatToString(i)) == Outcome(Ok, store)
  {
  }

  /** The path parameter "-n" counts from the end: it deletes the entry at
      max(len - n, 0), so past the front it deletes the first entry. */
  lemma DeleteFromEnd(store: Store, email: string, n: nat)
    requires email in store && 1 <= n && |store[email]| > 0
    ensures var len := |store[email]|;
      var k := if n <= len then len - n else 0;
      var r := Delete(store, email, "-" + NatToString(n));
      && r.status == Ok
      && r.store[email] == store[email][..k] + store[email][k + 1..]
  {
  }

  /** A path parameter with no digit and no letter "I" in it ("abc", "-", "", " ",
      ".") is neither a number nor "Infinity", so it converts to NaN or 0 and delete
      reads it as 0: the first entry goes, and a 200 follows even on an empty
      array. For update the same parameter is 404 (array property names such as
      "length" aside, which the model does not distinguish). */
  lemma NonNumericIndex(store: Store, email: string, index: string, updateData: Entry)
    requires email in store
    requires forall c :: c in index ==> !IsDigit(c) && c != 'I'
    ensures Put(store, email, index, updateData) == Outcome(NotFound, store)
    ensures var r := Delete(store, email, index);
      && r.status == Ok
      && r.store[email] == if store[email] == [] then [] else store[email][1..]
  {
  }

  /** A numeral with a leading zero, such as "01", names no entry for update (404)
      but is the position it spells for delete. */
  lemma PaddedIndex(store: Store, email: string, i: nat, updateData: Entry)
    requires email in store && i < |store[email]|
    ensures Put(store, email, "0" + NatToString(i), updateData) == Outcome(NotFound, store)
    ensures Delete(store, email, "0" + NatToString(i)).store[email]
      == store[email][..i] + store[email][i + 1..]
  {
    RelativeStartForms(i);
    var padded := "0" + NatToString(i);
    assert !IsCanonicalNumeral(padded);
    var a := store[email];
    var b := Delete(store, email, padded).store[email];
    assert b == a[..i] + a[i + 1..];
  }

  // A session against an empty collection: two posts for one email, an update of
  // index 0 and a delete of index 0, with what the listing shows after each.

  lemma ExamplePosts()
    ensures Post(Post(map[], map["email" := Str("a@x.com"), "mood" := Str("happy")]).store,
                 map["email" := Str("a@x.com"), "mood" := Str("sad")]).store
      == map["a@x.com" := [map["mood" := Str("happy")], map["mood" := Str("sad")]]]
  {
    var b1 := map["email" := Str("a@x.com"), "mood" := Str("happy")];
    var b2 := map["email" := Str("a@x.com"), "mood" := Str("sad")];
    assert Rest(b1, "email") == map["mood" := Str("happy")];
    assert Rest(b2, "email") == map["mood" := Str("sad")];
    assert [map["mood" := Str("happy")]] + [map["mood" := Str("sad")]]
      == [map["mood" := Str("happy")], map["mood" := Str("sad")]];
  }

  lemma ExampleListing(first: Entry, second: Entry)
    ensures Flatten(map["a@x.com" := [first, second]], ["a@x.com"]) == [
      Spread(map["_id" := Str("a@x.com_0"), "email" := Str("a@x.com"), "index" := Num(0)], first),
      Spread(map["_id" := Str("a@x.com_1"), "email" := Str("a@x.com"), "index" := Num(1)], second)]
  {
    var e := "a@x.com";
    assert Synthesised(e, 0) == map["_id" := Str("a@x.com_0"), "email" := Str(e), "index" := Num(0)] by {
      assert NatToString(0) == "0";
      assert e + "_" + "0" == "a@x.com_0";
    }
    assert Synthesised(e, 1) == map["_id" := Str("a@x.com_1"), "email" := Str(e), "index" := Num(1)] by {
      assert NatToString(1) == "1";
      assert e + "_" + "1" == "a@x.com_1";
    }
    var store := map[e := [first, second]];
    assert Flatten(store, [e]) == DocRecords(e, [first, second]) by {
      assert [e][..0] == [];
    }
    assert DocRecords(e, [first, second]) == [Record(e, 0, first), Record(e, 1, second)];
  }

  lemma ExampleUpdate()
    ensures Put(map["a@x.com" := [map["mood" := Str("happy")], map["mood" := Str("sad")]]],
                "a@x.com", "0", map["mood" := Str("ok")])
      == Outcome(Ok, map["a@x.com" := [map["mood" := Str("ok")], map["mood" := Str("sad")]]])
  {
    var happy := map["mood" := Str("happy")];
    var ok := map["mood" := Str("ok")];
    assert ArrayIndex("0") == Some(0);
    assert Spread(happy, ok) == ok;
    assert [happy, map["mood" := Str("sad")]][0 := ok] == [ok, map["mood" := Str("sad")]];
  }

  lemma ExampleDelete(first: Entry, second: Entry)
    ensures var store := map["a@x.com" := [first, second]];
      Delete(store, "a@x.com", "0") == Outcome(Ok, store["a@x.com" := [second]])
  {
    var entries := [first, second];
    var store := map["a@x.com" := entries];
    assert NatToString(0) == "0";
    DeleteAtPosition(store, "a@x.com", 0);
    assert entries[..0] + entries[1..] == [second];
  }

  lemma ExampleListingAfterDelete()
    ensures Flatten(map["a@x.com" := [map["mood" := Str("sad")]]], ["a@x.com"]) == [
      map["_id" := Str("a@x.com_0"), "email" := Str("a@x.com"), "index" := Num(0), "mood" := Str("sad")]]
  {
    var e := "a@x.com";
    var sad := map["mood" := Str("sad")];
    assert NatToString(0) == "0";
    assert e + "_" + "0" == "a@x.com_0";
    assert [e][..0] == [];
    assert Flatten(map[e := [sad]], [e]) == DocRecords(e, [sad]);
    assert Record(e, 0, sad)
      == map["_id" := Str("a@x.com_0"), "email" := Str(e), "index" := Num(0), "mood" := Str("sad")];
  }
}

=== FILE: server.dfy ===
/** The request handlers as they run: each reads the document from the collection,
    builds the new `entries` array step by step and writes the whole array back. */
module Server {
  import opened Json
  import opened ArrayIndices
  import opened Handlers
  import opened Listing

  /** The `trackers` collection of the document store. `docs` is what a document
      `get` reads and what a document `set` or `update` of `entries` replaces. */
  class TrackerCollection {
    var docs: Store

    constructor (initial: Store)
      ensures docs == initial
    {
      docs := initial;
    }

    /** POST /api/data */
    method HandlePost(body: Entry) returns (status: Status)
      modifies this
      ensures Outcome(status, docs) == Post(old(docs), body)
    {
      var entryData := Rest(body, "email");
      if "email" !in body || !Truthy(body["email"]) {
        return BadRequest;
      }
      if !body["email"].Str? {
        // the store client refuses a document path that is not a string
        return ServerError;
      }
      var email := body["email"].s;
      if email in docs {
        var existing := docs[email];
        docs := docs[email := existing + [entryData]];
      } else {
        docs := docs[email := [entryData]];
      }
      status := Ok;
    }

    /** PUT /api/data/:email/:index */
    method HandlePut(email: string, index: string, updateData: Entry) returns (status: Status)
      modifies this
      ensures Outcome(status, docs) == Put(old(docs), email, index, updateData)
    {
      if email !in docs {
        return NotFound;
      }
      var entries := docs[email];
      var position := ArrayIndex(index);
      if position.Some? && position.value < |entries| {
        var i := position.value;
        entries := entries[i := Spread(entries[i], updateData)];
        docs := docs[email := entries];
        status := Ok;
      } else {
        status := NotFound;
      }
    }

    /** DELETE /api/data/:email/:index */
    method HandleDelete(email: string, index: string) returns (status: Status)
      modifies this
      ensures Outcome(status, docs) == Delete(old(docs), email, index)
    {
      if email !in docs {
        return NotFound;
      }
      var entries := docs[email];
      entries := SpliceOne(entries, index);
      docs := docs[email := entries];
      status := Ok;
    }

    /** GET /api/data, given the order in which the snapshot yields the documents. */
    method HandleGet(order: seq<string>) returns (allEntries: seq<Entry>)
      requires IsSnapshot(docs, order)
      ensures allEntries == Flatten(docs, order)
      ensures |allEntries| == TotalEntries(docs, order)
      ensures forall email, i :: email in docs && 0 <= i < |docs[email]| ==>
        Record(email, i, docs[email][i]) in allEntries
    {
      var snapshot := docs;
      allEntries := ListAll(snapshot, order);
      forall email, i | email in docs && 0 <= i < |docs[email]|
        ensures Record(email, i, docs[email][i]) in allEntries
      {
        ListingComplete(docs, order, email, i);
      }
    }
  }
}
